=== FILE: README.md ===
# golist in Dafny

A model of `list.go`, the core of the `golist` package. The package wraps a Go
slice of comparable values in a generic `List[V]`. It offers:

- constructors: `From`, `L`, `Var`, `FromString`, `Range`, `Fill`, `Sequence`, `Between`;
- queries: `First`, `Last`, `Len`, `Empty`, `Contains`;
- transforms that build a fresh slice: `Filter`, both `Each` functions, `Every`,
  `Chunk`, `Join`, `JoinToString`, `Nth`, `Reverse`, `Unique`, `Zip`;
- updates that return the changed list for chaining: `Add` and `Delete`.

Files:

- `sequences.dfy` (module `Sequences`): pure functions on `seq` that say what each
  operation computes, such as `Filtered`, `Mapped`, `ChunksOf`, `EveryNth`,
  `Reversed`, `Dedup`, `Inclusive` and `Windows`. It also holds the lemmas that
  state the properties of these functions.
- `decimal.dfy` (module `Decimal`): the decimal text of an integer, as
  `strconv.Itoa` writes it. It is paired with a parse function, and the round
  trip between the two is proved.
- `golist.dfy` (module `GoList`): the `List<V>` datatype and every operation of
  `list.go`. The operations whose Go code is a loop are methods with loop
  invariants. Most are proved equal to a specification function in
  `Sequences`; `Contains`, `Delete`, `Zip`, `Fill` and `Sequence` state their
  result directly in their postconditions. The pure operations are functions.
- `scenarios.dfy` (module `Scenarios`): properties that combine several
  operations, and the concrete cases of `list_test.go`. Each case is a client
  method whose assertions follow from the contracts of the operations, with
  calls to the lemmas about their specification functions and unfoldings of
  those functions on the concrete values.

How the Go code is modelled:

- `List[V]` is passed by value, and every method has a value receiver. So `Add`
  and `Delete` return the changed list, and the caller's list keeps its length.
  After `Delete` the result still shares the caller's backing array, and the
  caller's elements are shifted as well. After `Add` the result shares it only
  when the slice had spare capacity; otherwise `append` allocates a new array
  (see "## Left out"). The model is a
  `datatype List<V(==)> = List(values: seq<V>)` whose members return new lists.
- The type parameter carries `(==)`, Dafny's equality, for the `==` that
  `Contains` and `Unique` use under Go's `comparable` constraint. Dafny's
  equality is reflexive, which Go's `==` is not for every comparable type (see
  "## Left out").
- Go returns the zero value of `V` from `First` and `Last` on an empty list.
  Dafny cannot name that value for a type parameter, so the caller passes it as
  `zero`.
- Callbacks (filters, mappers, converters, generators) are total Dafny
  functions.
- `Zip` returns the Go error as `Option<string>`, carrying the source's message.

Preconditions come from the places where the Go code panics or never returns.
They exclude nothing more:

- `Range` needs `max - min + 1 >= 0`, because `make` panics on a negative
  length. `Range(m, m - 1)` is allowed and gives the empty list.
- `Nth` needs `nth != 0` unless the list is empty. The remainder is only taken
  inside the loop, so an empty list never divides.
- `Chunk` needs `size > 0` unless the list is empty. With `size == 0` the loop
  never ends. A negative size makes the slice expression panic.
- `Between` needs `max >= 0`, because `max` is the capacity given to `make`. It
  also needs `chunk != 0` unless the range is empty.
- `Fill` and `Sequence` need `count >= 0`, because `count` is a capacity.

Go's `%` truncates toward zero, and Dafny's `%` is Euclidean. The model still
agrees with Go in the places the package uses it:

- `Nth` only takes `i % nth` with `i >= 0`. There both operators give the same
  result for any non-zero `nth`. So a negative step selects the same positions
  as its absolute value (`EveryNthNegated`).
- `Between` only tests `i % chunk == 0`. That test means "`chunk` divides `i`"
  under both operators, whatever the signs.

`Add` and `Delete` are easily read as updating the list in place. With value
receivers, the caller's list keeps its length, and only the returned list
has the new length. The model gives the returned list exactly.

## Model

| member | source | states |
|---|---|---|
| `GoList.From` | list.go:26-27 | the list built from a slice gives back exactly that slice from `Values` |
| `GoList.L` | list.go:65-66 | `L` is the same constructor as `From` |
| `GoList.Var` | list.go:68-69 | `Var` is the same constructor as `L` |
| `GoList.FromString` | list.go:29-42 | the result is the converted pieces whose conversion was accepted, in order |
| `Sequences.FilterMappedIsMapOfFilter` | list.go:33-39 | filter-mapping the pieces equals filtering the accepted pieces and then converting each |
| `GoList.Range` | list.go:44-52 | the result is the inclusive integer range from `min` to `max`; a negative length is excluded |
| `Sequences.InclusiveAt` | list.go:46-49 | the range has `max - min + 1` elements and element `i` is `min + i` |
| `Sequences.InclusiveMembers` | list.go:44-52 | a number is in the range exactly when it lies between the bounds |
| `GoList.Each` | list.go:54-63 | the result is the mapper applied to every element, giving a list of another type |
| `Sequences.Mapped` | list.go:56-60 | a mapped sequence has the input's length and `r[i] == f(s[i])` at every position |
| `GoList.List.Values` | list.go:71-72 | the slice wrapped in the list; wrapping it again gives the same list |
| `GoList.List.Len` | list.go:102-103 | the number of elements, zero exactly for the empty slice |
| `GoList.List.Empty` | list.go:105-106 | true exactly when the list has no elements |
| `GoList.List.First` | list.go:74-86 | the first element, or the zero value when the list is empty |
| `GoList.List.Last` | list.go:88-100 | the last element, or the zero value when the list is empty |
| `GoList.AddGrows` | list.go:102-114 | after `Add`, `Len` is one more, `Empty` is false, the new value is `Last`, and `First` is unchanged on a non-empty list |
| `GoList.List.Add` | list.go:108-114 | the result is the values with `v` appended |
| `GoList.List.Delete` | list.go:116-127 | an index at or past the end gives the list unchanged; otherwise the element at `index` is removed, the others keep their order, and the multiset loses exactly that element |
| `GoList.DeleteGuardMissesHugeIndex` | list.go:121 | the guard as written, `Len() <= int(index)`, fails to catch an index of 2^63 or more |
| `Scenarios.DeleteUndoesAdd` | list.go:108-127 | deleting at the old length after `Add` gives back the original list |
| `GoList.List.Filter` | list.go:129-140 | the result is the elements accepted by the filter, in order |
| `Sequences.FilteredIsSubsequence` | list.go:130-140 | the filtered sequence is a subsequence of the input, so order is preserved |
| `Sequences.FilteredCounts` | list.go:130-140 | an accepted value keeps all its occurrences and a rejected one keeps none |
| `Sequences.FilteredMembers` | list.go:130-140 | a value is in the result exactly when it is in the input and accepted |
| `GoList.List.Each` | list.go:142-151 | the result is the mapper applied to every element |
| `GoList.List.Chunk` | list.go:153-170 | the chunks are consecutive runs of `size` elements; an empty list gives no chunks for any size |
| `Sequences.ChunksConcat` | list.go:154-170 | concatenating the chunks gives back the original values |
| `Sequences.ChunksSizes` | list.go:159-166 | every chunk but the last has exactly `size` elements, and the last has between 1 and `size` |
| `Sequences.ChunksCount` | list.go:159-166 | there are `ceil(n / size)` chunks |
| `GoList.List.Join` | list.go:172-188 | the result is the receiver's values followed by each argument's values in order, and its length is the precomputed `outputLen` |
| `Sequences.ConcatLength` | list.go:174-178 | the concatenation is as long as the parts together |
| `GoList.JoinToString` | list.go:190-204 | for a list of strings, the result is the elements with the separator between neighbours |
| `Sequences.JoinedLength` | list.go:203 | the joined string's length is the total length of the parts plus one separator per gap |
| `GoList.List.Nth` | list.go:206-217 | the result is the elements whose 0-based position is divisible by `nth` |
| `Sequences.EveryNthStride` | list.go:210-214 | for a positive step `k`, the result has `ceil(n / k)` elements and element `j` is input element `j * k` |
| `Sequences.EveryNthNegated` | list.go:211 | a negative step selects the same elements as its absolute value |
| `GoList.List.Contains` | list.go:228-240 | true exactly when some element equals the value |
| `Scenarios.UniqueKeepsMembers` | list.go:228-277 | a value is contained after `Unique` exactly when it was contained before |
| `GoList.List.Reverse` | list.go:242-252 | the result is the values in reverse order, built on a copied array |
| `Sequences.ReversedAt` | list.go:247-249 | position `i` of the result holds position `n - 1 - i` of the input |
| `Sequences.ReversedTwice` | list.go:242-252 | reversing twice gives back the original sequence |
| `Sequences.ReversedPermutes` | list.go:244-249 | reversal keeps every element with its number of occurrences |
| `Scenarios.ReverseTwice` | list.go:242-252 | calling `Reverse` twice returns the original list |
| `Scenarios.FirstOfReverse` | list.go:74-100 | the first element of the reversed list is the last element of the original, including the zero value for an empty list |
| `GoList.List.Unique` | list.go:265-277 | the result keeps the first occurrence of every value, tracked by the `visited` map |
| `Sequences.DedupMembers` | list.go:266-277 | a value is in the result exactly when it is in the input |
| `Sequences.DedupDistinct` | list.go:269-274 | no value occurs twice in the result |
| `Sequences.DedupFirstOccurrenceOrder` | list.go:269-274 | values appear in the order of their first occurrence in the input |
| `GoList.List.Zip` | list.go:279-292 | an error, with no pairs, exactly when the lengths differ; otherwise one pair per position, `[values[i], other[i]]` |
| `GoList.Fill` | list.go:305-314 | `count` elements, each equal to the given value |
| `GoList.Sequence` | list.go:316-327 | `count` placeholders `symbol + Itoa(start + k)`, no two equal |
| `GoList.PlaceholderInjective` | list.go:323 | placeholders with different numbers differ |
| `Decimal.ParseItoa` | list.go:323 | the decimal text of every integer reads back as that integer |
| `Decimal.ItoaInjective` | list.go:323 | different integers get different decimal texts |
| `GoList.Every` | list.go:329-338 | the result is the function applied to every element, as a plain slice |
| `GoList.Between` | list.go:340-350 | one generated value per multiple of `chunk` between `min` and `max`, for the window of `chunk` numbers that ends at it |
| `Sequences.BoundariesExact` | list.go:343-344 | the window ends are exactly the multiples of `chunk` in the range, strictly increasing |
| `Sequences.WindowsAtBoundaries` | list.go:343-347 | the generated values are the generator applied to each window end, in order |

## Left out

- The `sync.RWMutex` and its lock and unlock calls are not modelled. The model is sequential.
- `Random` and `Shuffle` are not modelled. They reseed `math/rand` from the clock, so they are nondeterministic.
- `Interface` is not modelled. It only converts to `[]interface{}` and has no behaviour to state.
- `FromString` does not model `strings.Split` or `strings.TrimSpace`. It takes the already split and trimmed pieces as input.
- `JoinToString` is modelled for lists of strings only. Its type switch, which returns `""` as soon as an element is not a string, has no Dafny counterpart. `strings.Join` is modelled by the function `Joined`.
- Callbacks are modelled as total, stateless Dafny functions. A Go closure can keep state between calls, so results of `Filter`, both `Each` functions, `Every`, `FromString` and `Between` that depend on how many times or in which order the callback runs are not expressed. A callback that panics is not covered either.
- Slice aliasing is not modelled; every result is a fresh value. In Go, `Delete` shifts the shared backing array, so the caller's own list then reads differently: `[1 2 3]` becomes `[2 3 3]` after `l.Delete(0)`. `Add` may write into spare capacity that other copies share, and `Chunk` returns sub-slices of the original.
- Integers are unbounded in the model, so Go's fixed-width arithmetic is not modelled. This covers `max - min + 1` and `min + V(i)` in `Range` for every integer type, and the loop counter of `Sequence`, which never ends when `start + count - 1` is the largest `int`. `Between` with the largest `int` as `max` panics first, in `make`, for any element type of non-zero size.
- Equality on `V` is assumed to be an equivalence, as Dafny's `==` is. Go's `==` is not reflexive for a NaN float: on a `List[float64]`, `Contains(NaN)` is false and `Unique` keeps every NaN, because the `visited` lookup never finds one. For a `List[any]` holding an uncomparable dynamic value, such as a `[]int`, the map lookup `visited[v]` in `Unique` (list.go:270) panics, and `Contains` panics when the probe has the same uncomparable dynamic type (list.go:234). Neither case is modelled. `Dedup`, `DedupMembers`, `DedupDistinct`, `ReversedTwice` and the postcondition of `Contains` rely on reflexive equality.
- The capacities passed to `make` only appear where a negative value would panic. They become preconditions, as listed above.

## Findings

| source | as written | input that shows it | evidently intended | confidence | as-written member | corrected member |
|---|---|---|---|---|---|---|
| list.go:121 | the guard `l.Len() <= int(index)` converts the unsigned index to a signed `int`, which wraps to a negative number for an index of 2^63 or more | `Var(1, 2, 3).Delete(1 << 63)`: the guard is false, so `l.values[:index]` is evaluated past the end and panics | every index at or past the end returns the list unchanged | medium: 64-bit `int` assumed, not executed | `GoList.DeleteGuardMissesHugeIndex` | `GoList.List.Delete` |

=== FILE: decimal.dfy ===
/** Base-10 formatting of integers as Go's strconv.Itoa produces it: a minus
    sign for a negative number, then its digits without leading zeros. The
    formatting is paired with the parse that reads it back. */
module Decimal {

  predicate IsDigit(c: char)
  {
    '0' <= c <= '9'
  }

  /** The character that writes the digit `d`. */
  function DigitChar(d: nat): (c: char)
    requires d < 10
    ensures IsDigit(c)
  {
    (('0' as int) + d) as char
  }

  /** The digit that the character `c` writes. */
  function DigitValue(c: char): (d: nat)
    requires IsDigit(c)
    ensures d < 10
  {
    (c as int) - ('0' as int)
  }

  /** The digits of `n`, most significant first, without leading zeros. */
  function Digits(n: nat): (s: string)
    ensures |s| >= 1
    ensures forall i :: 0 <= i < |s| ==> IsDigit(s[i])
    ensures n > 0 ==> s[0] != '0'
  {
    if n < 10 then [DigitChar(n)] else Digits(n / 10) + [DigitChar(n % 10)]
  }

  /** The decimal text of `i`. */
  function Itoa(i: int): (s: string)
    ensures |s| >= 1
    ensures s[0] == '-' <==> i < 0
  {
    if i < 0 then "-" + Digits(-i) else Digits(i)
  }

  /** A non-empty run of digits after an optional minus sign. */
  predicate IsDecimal(s: string)
  {
    var start := if |s| > 0 && s[0] == '-' then 1 else 0;
    start < |s| && forall i :: start <= i < |s| ==> IsDigit(s[i])
  }

  /** The number that a string of digits writes in base 10. */
  function ParseDigits(s: string): nat
    requires forall i :: 0 <= i < |s| ==> IsDigit(s[i])
  {
    if s == [] then 0 else ParseDigits(s[..|s| - 1]) * 10 + DigitValue(s[|s| - 1])
  }

  /** The number that a decimal text writes. */
  function Parse(s: string): (i: int)
    requires IsDecimal(s)
  {
    var magnitude: int := ParseDigits(if s[0] == '-' then s[1..] else s);
    if s[0] == '-' then -magnitude else magnitude
  }

  /** Reading back the digits of `n` gives `n`. */
  lemma {:induction false} ParseDigitsOfDigits(n: nat)
    ensures ParseDigits(Digits(n)) == n
  {
    var s := Digits(n);
    if n < 10 {
      assert s[..0] == [];
    } else {
      ParseDigitsOfDigits(n / 10);
      assert s[..|s| - 1] == Digits(n / 10);
    }
  }

  /** The decimal text of every integer parses back to that integer. */
  lemma ParseItoa(i: int)
    ensures IsDecimal(Itoa(i)) && Parse(Itoa(i)) == i
  {
    var s := Itoa(i);
    if i < 0 {
      assert s[1..] == Digits(-i);
      ParseDigitsOfDigits(-i);
    } else {
      ParseDigitsOfDigits(i);
    }
  }

  /** Different integers have different decimal texts. */
  lemma ItoaInjective(a: int, b: int)
    requires a != b
    ensures Itoa(a) != Itoa(b)
  {
    ParseItoa(a);
    ParseItoa(b);
  }
}

=== FILE: golist.dfy ===
/** The generic list wrapper: a Go slice of comparable values with
    constructors, queries and transforms that return a fresh list.

    Go's `List[V]` is a struct passed by value; every method has a value
    receiver, so `Add` and `Delete` hand back the changed list and the
    caller's list keeps its length. After `Delete` the result still shares
    the caller's backing array, whose elements it has shifted; after `Add`
    it shares it only when the slice had spare capacity. That sharing is not
    modelled: the model is a datatype whose member methods return new
    lists. The read/write mutex that the struct carries is not
    modelled. */
module GoList {
  import opened Sequences
  import opened Decimal

  datatype Option<T> = None | Some(value: T)

  /** The error text that `Zip` reports for lists of different lengths. */
  const LengthMismatch := "list must be of the same length"

  /** The values of each list, in order. */
  function ValuesOf<V(==)>(lists: seq<List<V>>): (vs: seq<seq<V>>)
    ensures |vs| == |lists|
    ensures forall i :: 0 <= i < |lists| ==> vs[i] == lists[i].values
  {
    seq(|lists|, i requires 0 <= i < |lists| => lists[i].values)
  }

  datatype List<V(==)> = List(values: seq<V>)
  {
    /** The underlying slice: wrapping it again gives back this list. */
    function Values(): (vs: seq<V>)
      ensures List(vs) == this
    {
      values
    }

    /** The number of elements; zero exactly for the empty slice. */
    function Len(): (n: nat)
      ensures n == |Values()|
      ensures n == 0 <==> values == []
    {
      |values|
    }

    /** Whether the list has no elements. */
    function Empty(): (b: bool)
      ensures b <==> values == []
    {
      Len() == 0
    }

    /** The first element, or the zero value of `V` (passed as `zero`) when
        the list is empty. */
    function First(zero: V): (v: V)
      ensures Len() > 0 ==> v == values[0]
      ensures Empty() ==> v == zero
    {
      if Len() > 0 then values[0] else zero
    }

    /** The last element, or the zero value of `V` (passed as `zero`) when
        the list is empty. */
    function Last(zero: V): (v: V)
      ensures Len() > 0 ==> v == values[Len() - 1]
      ensures Empty() ==> v == zero
    {
      if Len() > 0 then values[Len() - 1] else zero
    }

    /** The list with `v` appended. */
    function Add(v: V): (r: List<V>)
      ensures r.values == values + [v]
    {
      List(values + [v])
    }

    /** The list without the element at `index`; an index past the end
        leaves the list as it is. The elements after `index` are shifted one
        place to the left; Go shifts them in the backing array it shares with
        the caller, the model in a copy of it. */
    method Delete(index: nat) returns (r: List<V>)
      ensures index >= Len() ==> r == this
      ensures index < Len() ==> r.values == values[..index] + values[index + 1..]
      ensures index < Len() ==> multiset(r.values) + multiset{values[index]} == multiset(values)
    {
      var n := |values|;
      if n <= index {
        return this;
      }
      var a := new V[n](k requires 0 <= k < n => values[k]);
      for k := index to n - 1
        invariant forall m :: 0 <= m < index ==> a[m] == values[m]
        invariant forall m :: index <= m < k ==> a[m] == values[m + 1]
        invariant forall m :: k <= m < n ==> a[m] == values[m]
      {
        a[k] := a[k + 1];
      }
      r := List(a[..n - 1]);
      assert r.values == values[..index] + values[index + 1..];
      assert values == values[..index] + [values[index]] + values[index + 1..];
    }

    /** The elements that satisfy `filter`, in order. */
    method Filter(filter: V -> bool) returns (r: List<V>)
      ensures r.values == Filtered(values, filter)
    {
      var newlist: seq<V> := [];
      for i := 0 to |values|
        invariant newlist == Filtered(values[..i], filter)
      {
        assert values[..i + 1][..i] == values[..i];
        if filter(values[i]) {
          newlist := newlist + [values[i]];
        }
      }
      assert values[..|values|] == values;
      r := List(newlist);
    }

    /** `mapper` applied to every element. */
    method Each(mapper: V -> V) returns (r: List<V>)
      ensures r.values == Mapped(values, mapper)
    {
      var newlist: seq<V> := [];
      for i := 0 to |values|
        invariant newlist == Mapped(values[..i], mapper)
      {
        assert values[..i + 1][..i] == values[..i];
        newlist := newlist + [mapper(values[i])];
      }
      assert values[..|values|] == values;
      r := List(newlist);
    }

    /** Consecutive sub-lists of `size` elements, the last one holding what
        is left. A non-positive size is only harmless on an empty list, where
        the loop never runs. */
    method Chunk(size: int) returns (chunks: seq<List<V>>)
      requires size > 0 || Empty()
      ensures Empty() ==> chunks == []
      ensures size > 0 ==> ValuesOf(chunks) == ChunksOf(values, size)
    {
      chunks := [];
      var n := |values|;
      var i := 0;
      while i < n
        invariant 0 <= i
        invariant n == 0 ==> chunks == []
        invariant size > 0 ==> ValuesOf(chunks) + ChunksOf(values[Min(i, n)..], size) == ChunksOf(values, size)
        decreases n - i
      {
        var end := i + size;
        if end > n {
          end := n;
        }
        ChunkStep(values[i..], size);
        assert values[i..][..end - i] == values[i..end];
        assert values[i..][end - i..] == values[end..];
        assert ValuesOf(chunks + [List(values[i..end])]) == ValuesOf(chunks) + [values[i..end]];
        chunks := chunks + [List(values[i..end])];
        i := i + size;
        assert Min(i, n) == end;
      }
      assert values[Min(i, n)..] == [];
    }

    /** This list followed by each of `lists`, in argument order. */
    method Join(lists: seq<List<V>>) returns (r: List<V>)
      ensures r.values == values + Concat(ValuesOf(lists))
      ensures |r.values| == Len() + TotalLength(ValuesOf(lists))
    {
      var outputLen := |values|;
      for k := 0 to |lists|
        invariant outputLen == |values| + TotalLength(ValuesOf(lists[..k]))
      {
        assert ValuesOf(lists[..k + 1]) == ValuesOf(lists[..k]) + [lists[k].values];
        outputLen := outputLen + |lists[k].values|;
      }
      var newlist := values;
      for k := 0 to |lists|
        invariant newlist == values + Concat(ValuesOf(lists[..k]))
      {
        assert ValuesOf(lists[..k + 1]) == ValuesOf(lists[..k]) + [lists[k].values];
        newlist := newlist + lists[k].values;
      }
      assert lists[..|lists|] == lists;
      ConcatLength(ValuesOf(lists));
      r := List(newlist);
      assert |r.values| == outputLen;
    }

    /** The elements whose position is divisible by `nth`. The remainder is
        only taken for an element, so a zero step is harmless on an empty
        list. */
    method Nth(nth: int) returns (r: List<V>)
      requires nth != 0 || Empty()
      ensures r.values == EveryNth(values, nth)
    {
      var newlist: seq<V> := [];
      for i := 0 to |values|
        invariant newlist == EveryNth(values[..i], nth)
      {
        assert values[..i + 1][..i] == values[..i];
        if i % nth == 0 {
          newlist := newlist + [values[i]];
        }
      }
      assert values[..|values|] == values;
      r := List(newlist);
    }

    /** Whether some element equals `v`. */
    method Contains(v: V) returns (found: bool)
      ensures found <==> v in values
    {
      for i := 0 to |values|
        invariant v !in values[..i]
      {
        if values[i] == v {
          return true;
        }
        assert values[..i + 1] == values[..i] + [values[i]];
      }
      assert values[..|values|] == values;
      return false;
    }

    /** The elements in reverse order, computed on a copy: the copied array
        is reversed in place by two indices that meet in the middle. */
    method Reverse() returns (r: List<V>)
      ensures r.values == Reversed(values)
    {
      var n := |values|;
      var a := new V[n](k requires 0 <= k < n => values[k]);
      var i, j := 0, n - 1;
      while i < j
        invariant 0 <= i <= j + 1 <= n && j == n - 1 - i
        invariant forall k :: 0 <= k < i ==> a[k] == values[n - 1 - k] && a[n - 1 - k] == values[k]
        invariant forall k :: i <= k <= j ==> a[k] == values[k]
      {
        a[i], a[j] := a[j], a[i];
        i, j := i + 1, j - 1;
      }
      forall k | 0 <= k < n
        ensures a[k] == Reversed(values)[k]
      {
        ReversedAt(values, k);
        if k > j {
          assert a[n - 1 - (n - 1 - k)] == values[n - 1 - k];
        }
      }
      r := List(a[..]);
    }

    /** The first occurrence of every value, in the order of first
        occurrence; `visited` records the values already kept. */
    method Unique() returns (r: List<V>)
      ensures r.values == Dedup(values)
    {
      var unique: seq<V> := [];
      var visited: map<V, bool> := map[];
      for i := 0 to |values|
        invariant unique == Dedup(values[..i])
        invariant forall x :: x in visited <==> x in values[..i]
      {
        var v := values[i];
        assert values[..i + 1][..i] == values[..i];
        assert values[..i + 1] == values[..i] + [v];
        if v !in visited {
          unique := unique + [v];
          visited := visited[v := true];
        }
      }
      assert values[..|values|] == values;
      r := List(unique);
    }

    /** Pairs of elements at the same position, each pair a two-element
        list; lists of different lengths give no pairs and an error. */
    method Zip(other: List<V>) returns (zipped: seq<List<V>>, err: Option<string>)
      ensures err.Some? <==> Len() != other.Len()
      ensures err.Some? ==> zipped == [] && err.value == LengthMismatch
      ensures err.None? ==> |zipped| == Len()
      ensures err.None? ==> forall i :: 0 <= i < Len() ==> zipped[i].values == [values[i], other.values[i]]
    {
      if |values| != |other.values| {
        return [], Some(LengthMismatch);
      }
      var a := new List<V>[|values|];
      for i := 0 to |values|
        invariant forall k :: 0 <= k < i ==> a[k].values == [values[k], other.values[k]]
      {
        a[i] := Var([values[i], other.values[i]]);
      }
      zipped, err := a[..], None;
    }
  }

  /** Go's conversion `int(index)` of a 64-bit unsigned index to a 64-bit
      signed integer: indices from 2^63 upwards wrap to negative numbers. */
  function AsInt64(index: nat): (i: int)
    requires index < 0x1_0000_0000_0000_0000
    ensures -0x8000_0000_0000_0000 <= i < 0x8000_0000_0000_0000
    ensures i == index || i == index - 0x1_0000_0000_0000_0000
  {
    if index < 0x8000_0000_0000_0000 then index else index - 0x1_0000_0000_0000_0000
  }

  /** The out-of-range test of `Delete` as written: the list is returned
      unchanged when `len <= int(index)`. */
  predicate DeleteGuardAsWritten(len: nat, index: nat)
    requires index < 0x1_0000_0000_0000_0000
  {
    len <= AsInt64(index)
  }

  /** For every index of 2^63 or more, the guard as written takes the index
      for an in-range one, so `Delete` goes on to slice the list at a
      position past its end instead of returning it unchanged. */
  lemma DeleteGuardMissesHugeIndex(len: nat, index: nat)
    requires len < 0x8000_0000_0000_0000 <= index < 0x1_0000_0000_0000_0000
    ensures index >= len && !DeleteGuardAsWritten(len, index)
  {
  }

  /** Appending grows the length by one, makes the list non-empty and puts
      the new value last. */
  lemma AddGrows<V>(l: List<V>, v: V, zero: V)
    ensures l.Add(v).Len() == l.Len() + 1
    ensures !l.Add(v).Empty()
    ensures l.Add(v).Last(zero) == v
    ensures !l.Empty() ==> l.Add(v).First(zero) == l.First(zero)
  {
  }

  function Min(a: int, b: int): int
  {
    if a < b then a else b
  }

  /** One step of the chunking loop: the first chunk of a non-empty sequence
      is its first `size` elements (or all of them), and the rest are the
      chunks of what follows. */
  lemma ChunkStep<V>(s: seq<V>, size: nat)
    requires size > 0 && s != []
    ensures var end := if size < |s| then size else |s|;
      ChunksOf(s, size) == [s[..end]] + ChunksOf(s[end..], size)
  {
    if |s| <= size {
      assert s[..|s|] == s;
      assert s[|s|..] == [];
      assert ChunksOf(s[|s|..], size) == [];
    }
  }

  /** The list holding `values`. */
  function From<V(==)>(values: seq<V>): (l: List<V>)
    ensures l.Values() == values
  {
    List(values)
  }

  /** Another name for `From`. */
  function L<V(==)>(values: seq<V>): (l: List<V>)
    ensures l == From(values)
  {
    From(values)
  }

  /** The list of the given arguments. */
  function Var<V(==)>(values: seq<V>): (l: List<V>)
    ensures l == L(values)
  {
    L(values)
  }

  /** The list of the converted pieces of a string whose conversion was
      accepted, in order. `pieces` is the string already split at the
      separator and with surrounding white space removed from each piece. */
  method FromString<V(==)>(pieces: seq<string>, mapper: string -> (V, bool)) returns (l: List<V>)
    ensures l.values == FilterMapped(pieces, mapper)
  {
    var newlist: seq<V> := [];
    for i := 0 to |pieces|
      invariant newlist == FilterMapped(pieces[..i], mapper)
    {
      assert pieces[..i + 1][..i] == pieces[..i];
      var (newv, mapped) := mapper(pieces[i]);
      if mapped {
        newlist := newlist + [newv];
      }
    }
    assert pieces[..|pieces|] == pieces;
    l := List(newlist);
  }

  /** The integers from `min` to `max`, both included. The slice is made
      with length `max - min + 1`, which must not be negative. */
  method Range(min: int, max: int) returns (l: List<int>)
    requires max - min + 1 >= 0
    ensures l.values == Inclusive(min, max)
  {
    var a := new int[max - min + 1];
    for i := 0 to a.Length
      invariant forall k :: 0 <= k < i ==> a[k] == min + k
    {
      a[i] := min + i;
    }
    InclusiveAt(min, max);
    l := List(a[..]);
  }

  /** `fn` applied to every element, giving a list of another type. */
  method Each<V(==), E(==)>(l: List<V>, fn: V -> E) returns (r: List<E>)
    ensures r.values == Mapped(l.values, fn)
  {
    var newlist: seq<E> := [];
    var vs := l.Values();
    for i := 0 to |vs|
      invariant newlist == Mapped(vs[..i], fn)
    {
      assert vs[..i + 1][..i] == vs[..i];
      newlist := newlist + [fn(vs[i])];
    }
    assert vs[..|vs|] == vs;
    r := List(newlist);
  }

  /** `fn` applied to every element, as a plain slice. */
  method Every<V(==), E>(l: List<V>, fn: V -> E) returns (r: seq<E>)
    ensures r == Mapped(l.values, fn)
  {
    r := [];
    var vs := l.Values();
    for i := 0 to |vs|
      invariant r == Mapped(vs[..i], fn)
    {
      assert vs[..i + 1][..i] == vs[..i];
      r := r + [fn(vs[i])];
    }
    assert vs[..|vs|] == vs;
  }

  /** `count` copies of `symbol`. The count is the capacity of the slice, so
      it must not be negative. */
  method Fill<V(==)>(symbol: V, count: int) returns (l: List<V>)
    requires count >= 0
    ensures |l.values| == count
    ensures forall i :: 0 <= i < count ==> l.values[i] == symbol
  {
    var newlist: seq<V> := [];
    for i := 0 to count
      invariant |newlist| == i
      invariant forall k :: 0 <= k < i ==> newlist[k] == symbol
    {
      newlist := newlist + [symbol];
    }
    l := List(newlist);
  }

  /** A placeholder: `symbol` followed by the decimal text of `i`. */
  function Placeholder(symbol: string, i: int): string
  {
    symbol + Itoa(i)
  }

  /** Placeholders with the same symbol and different numbers differ. */
  lemma PlaceholderInjective(symbol: string, i: int, j: int)
    requires i != j
    ensures Placeholder(symbol, i) != Placeholder(symbol, j)
  {
    ItoaInjective(i, j);
    assert Placeholder(symbol, i)[|symbol|..] == Itoa(i);
    assert Placeholder(symbol, j)[|symbol|..] == Itoa(j);
  }

  /** `count` placeholders numbered from `start` upwards; no two are equal.
      The count is the capacity of the slice, so it must not be negative. */
  method Sequence(symbol: string, count: int, start: int) returns (l: List<string>)
    requires count >= 0
    ensures |l.values| == count
    ensures forall k :: 0 <= k < count ==> l.values[k] == Placeholder(symbol, start + k)
    ensures forall a, b :: 0 <= a < b < count ==> l.values[a] != l.values[b]
  {
    var newlist: seq<string> := [];
    var end := count + start - 1;
    for i := start to end + 1
      invariant |newlist| == i - start
      invariant forall k :: 0 <= k < i - start ==> newlist[k] == Placeholder(symbol, start + k)
    {
      newlist := newlist + [Placeholder(symbol, i)];
    }
    l := List(newlist);
    forall a, b | 0 <= a < b < count
      ensures l.values[a] != l.values[b]
    {
      PlaceholderInjective(symbol, start + a, start + b);
    }
  }

  /** One generated value per window: for every `i` from `min` to `max` that
      is a multiple of `chunk`, `f` is called on the window of `chunk`
      numbers ending at `i`. `max` is the capacity of the slice, so it must
      not be negative, and the remainder by `chunk` is only taken when the
      range is not empty. */
  method Between<V(==)>(min: int, max: int, chunk: int, f: (int, int) -> V) returns (l: List<V>)
    requires max >= 0
    requires chunk != 0 || max < min
    ensures l.values == Windows(min, max, chunk, f)
  {
    var newlist: seq<V> := [];
    var i := min;
    while i <= max
      invariant i <= max + 1 || max < min
      invariant max < min ==> i == min
      invariant newlist == Windows(min, i - 1, chunk, f)
      decreases max - i
    {
      if i % chunk == 0 {
        newlist := newlist + [f(i - chunk + 1, chunk)];
      }
      i := i + 1;
    }
    l := List(newlist);
  }

  /** The elements of a list of strings with `separator` between each two
      neighbours. */
  method JoinToString(l: List<string>, separator: string) returns (s: string)
    ensures s == Joined(l.values, separator)
  {
    var sparts: seq<string> := [];
    for i := 0 to |l.values|
      invariant sparts == l.values[..i]
    {
      sparts := sparts + [l.values[i]];
    }
    assert l.values[..|l.values|] == l.values;
    s := Joined(sparts, separator);
  }
}

=== FILE: scenarios.dfy ===
/** The concrete scenarios of the package's unit tests, and properties that
    combine several list operations, stated as client methods of the
    model. Each assertion is proved from the contracts of the operations,
    the lemmas about their specifications, and unfoldings of those
    specification functions on the concrete values. */
module Scenarios {
  import opened Sequences
  import opened Decimal
  import opened GoList

  /** Deleting the element just added gives back the original list. */
  method DeleteUndoesAdd<V(==)>(l: List<V>, v: V) returns (r: List<V>)
    ensures r == l
  {
    var added := l.Add(v);
    r := added.Delete(l.Len());
    assert added.values[..l.Len()] == l.values;
  }

  /** Reversing a list twice gives back the original list. */
  method ReverseTwice<V(==)>(l: List<V>) returns (r: List<V>)
    ensures r == l
  {
    var once := l.Reverse();
    r := once.Reverse();
    ReversedTwice(l.values);
  }

  /** The first element of the reversed list is the last of the original. */
  method FirstOfReverse<V(==)>(l: List<V>, zero: V) returns (first: V)
    ensures first == l.Last(zero)
  {
    var r := l.Reverse();
    first := r.First(zero);
    if l.Len() > 0 {
      ReversedAt(l.values, 0);
    }
  }

  /** Removing duplicates keeps exactly the values that the list contains. */
  method UniqueKeepsMembers<V(==)>(l: List<V>, v: V) returns (before: bool, after: bool)
    ensures before == after
  {
    before := l.Contains(v);
    var u := l.Unique();
    after := u.Contains(v);
    DedupMembers(l.values, v);
  }

  method TestListFrom()
  {
    var l := From([1, 2, 3]);
    assert l.Values() == [1, 2, 3];
  }

  /** The string "1, 2, 3" split at "," and trimmed gives the pieces below. */
  method TestListFromString()
  {
    var toInt := (s: string) => if IsDecimal(s) then (Parse(s), true) else (0, false);
    var l := FromString(["1", "2", "3"], toInt);
    assert IsDecimal("1") && IsDecimal("2") && IsDecimal("3");
    assert l.Values() == [1, 2, 3];
  }

  method TestListAdd()
  {
    var l := L([1, 2]);
    l := l.Add(3);
    assert l.Values() == [1, 2, 3];
  }

  method TestListDelete()
  {
    var l := L([1, 2]);
    l := l.Delete(0);
    assert l.Values() == [2];
    var m := L([1, 2, 3]);
    var n := m.Delete(10);
    assert n.Values() == [1, 2, 3];
  }

  method TestListFilter()
  {
    var l := L([1, 2, 3, 4, 5, 6]);
    var isEven := (v: int) => v % 2 == 0;
    var even := l.Filter(isEven);
    assert Filtered([1, 2, 3], isEven) == [2] by {
      assert [1, 2, 3][..2] == [1, 2] && [1, 2][..1] == [1] && [1][..0] == [];
    }
    assert Filtered([1, 2, 3, 4, 5, 6], isEven) == [2, 4, 6] by {
      assert [1, 2, 3, 4, 5, 6][..5] == [1, 2, 3, 4, 5];
      assert [1, 2, 3, 4, 5][..4] == [1, 2, 3, 4];
      assert [1, 2, 3, 4][..3] == [1, 2, 3];
    }
    assert even.Values() == [2, 4, 6];
  }

  method TestListEach()
  {
    var l := L([1, 2, 3]);
    var doubled := l.Each(v => v * 2);
    assert doubled.Values() == [2, 4, 6];
  }

  method TestListChunk()
  {
    var l := L([1, 2, 3, 4, 5]);
    var chunks := l.Chunk(2);
    assert ChunksOf([1, 2, 3, 4, 5], 2) == [[1, 2], [3, 4], [5]] by {
      assert [1, 2, 3, 4, 5][..2] == [1, 2] && [1, 2, 3, 4, 5][2..] == [3, 4, 5];
      assert [3, 4, 5][..2] == [3, 4] && [3, 4, 5][2..] == [5];
    }
    assert |chunks| == 3;
    assert chunks[0].Values() == [1, 2];
    assert chunks[1].Values() == [3, 4];
    assert chunks[2].Values() == [5];
  }

  method TestListJoin()
  {
    var l := L([1, 2, 3]);
    var others := [L([4, 5]), L([6, 7])];
    l := l.Join(others);
    assert ValuesOf(others) == [[4, 5], [6, 7]];
    assert Concat([[4, 5], [6, 7]]) == [4, 5, 6, 7] by {
      assert [[4, 5], [6, 7]][..1] == [[4, 5]] && [[4, 5]][..0] == [];
    }
    assert l.Values() == [1, 2, 3, 4, 5, 6, 7];
  }

  method TestRange()
  {
    var l := Range(1, 10);
    assert l.Values() == [1, 2, 3, 4, 5, 6, 7, 8, 9, 10];
  }

  method TestListNth()
  {
    var l := Range(1, 10);
    var n := l.Nth(3);
    assert l.Values() == [1, 2, 3, 4, 5, 6, 7, 8, 9, 10];
    EveryNthStride(l.Values(), 3);
    assert |n.Values()| == 4;
    assert n.Values()[1] == l.Values()[3];
    assert n.Values()[2] == l.Values()[6];
    assert n.Values()[3] == l.Values()[9];
    assert n.Values() == [1, 4, 7, 10];
  }

  method TestListFirst()
  {
    assert L([2, 3, 10]).First(0) == 2;
    assert Var<int>([]).First(0) == 0;
  }

  method TestListLast()
  {
    assert L([2, 3, 10]).Last(0) == 10;
    assert Var<string>([]).Last("") == "";
  }

  method TestListReverse()
  {
    var r := L([1, 2, 3, 4, 5]).Reverse();
    forall i | 0 <= i < 5 ensures r.Values()[i] == 5 - i {
      ReversedAt([1, 2, 3, 4, 5], i);
    }
    assert r.Values() == [5, 4, 3, 2, 1];
  }

  method TestListUnique()
  {
    var u := Var([1, 1, 1, 1, 2]).Unique();
    assert Dedup([1, 1, 1, 1, 2]) == [1, 2] by {
      assert [1, 1, 1, 1, 2][..4] == [1, 1, 1, 1];
      assert [1, 1, 1, 1][..3] == [1, 1, 1];
      assert [1, 1, 1][..2] == [1, 1];
      assert [1, 1][..1] == [1] && [1][..0] == [];
    }
    assert u.Values() == [1, 2];
  }

  method TestListZip()
  {
    var lists, err := Var([1, 2, 3]).Zip(Var([4, 5, 6]));
    assert err == None;
    assert |lists| == 3;
    assert lists[0].Values() == [1, 4];
    assert lists[1].Values() == [2, 5];
    assert lists[2].Values() == [3, 6];
  }

  method TestEach()
  {
    var strs := Each(Var([1, 2, 3]), Itoa);
    assert strs.Values() == ["1", "2", "3"];
  }

  /** The example in the documentation of `Sequence`. */
  method TestSequence()
  {
    var l := Sequence("$", 3, 1);
    assert Itoa(1) == "1" && Itoa(2) == "2" && Itoa(3) == "3";
    assert l.Values()[0] == Placeholder("$", 1) == "$1";
    assert l.Values()[1] == Placeholder("$", 2) == "$2";
    assert l.Values()[2] == Placeholder("$", 3) == "$3";
    assert l.Values() == ["$1", "$2", "$3"];
  }
}

=== FILE: sequences.dfy ===
/** Pure sequence functions that specify what each list operation computes,
    and the properties proved about them. Most functions are defined by
    recursion on the last element, the way the list operations build their
    result by appending one element per loop iteration. */
module Sequences {

  // ---------------------------------------------------------------------
  // Filter

  /** The elements of `s` that satisfy `p`, in their original order. */
  function Filtered<V>(s: seq<V>, p: V -> bool): (r: seq<V>)
    ensures |r| <= |s|
  {
    if s == [] then []
    else
      var last := s[|s| - 1];
      Filtered(s[..|s| - 1], p) + (if p(last) then [last] else [])
  }

  /** `r` can be obtained from `s` by deleting elements, without reordering. */
  ghost predicate IsSubsequence<V>(r: seq<V>, s: seq<V>)
    decreases |s|
  {
    r == [] ||
    (s != [] &&
     ((r[|r| - 1] == s[|s| - 1] && IsSubsequence(r[..|r| - 1], s[..|s| - 1])) ||
      IsSubsequence(r, s[..|s| - 1])))
  }

  /** Filtering keeps the surviving elements in their original order. */
  lemma {:induction false} FilteredIsSubsequence<V>(s: seq<V>, p: V -> bool)
    ensures IsSubsequence(Filtered(s, p), s)
  {
    if s != [] {
      var init, last := s[..|s| - 1], s[|s| - 1];
      FilteredIsSubsequence(init, p);
      var r := Filtered(s, p);
      if p(last) {
        assert r == Filtered(init, p) + [last];
        assert r[..|r| - 1] == Filtered(init, p);
      } else {
        assert r == Filtered(init, p);
      }
    }
  }

  /** Filtering keeps every occurrence of an accepted value and none of a
      rejected one. */
  lemma {:induction false} FilteredCounts<V>(s: seq<V>, p: V -> bool, x: V)
    ensures multiset(Filtered(s, p))[x] == if p(x) then multiset(s)[x] else 0
  {
    if s != [] {
      var init, last := s[..|s| - 1], s[|s| - 1];
      FilteredCounts(init, p, x);
      assert s == init + [last];
      assert multiset(s) == multiset(init) + multiset{last};
    }
  }

  /** A value is in the filtered sequence exactly when it is in the input and
      accepted by the predicate. */
  lemma FilteredMembers<V>(s: seq<V>, p: V -> bool, x: V)
    ensures x in Filtered(s, p) <==> x in s && p(x)
  {
    FilteredCounts(s, p, x);
    assert x in Filtered(s, p) <==> x in multiset(Filtered(s, p));
    assert x in s <==> x in multiset(s);
  }

  // ---------------------------------------------------------------------
  // Map

  /** `f` applied to every element of `s`, position by position. */
  function Mapped<V, E>(s: seq<V>, f: V -> E): (r: seq<E>)
    ensures |r| == |s|
    ensures forall i :: 0 <= i < |s| ==> r[i] == f(s[i])
  {
    if s == [] then [] else Mapped(s[..|s| - 1], f) + [f(s[|s| - 1])]
  }

  // ---------------------------------------------------------------------
  // Filter-map (the constructor that parses pieces of a string)

  /** The converted pieces whose conversion was accepted, in order. */
  function FilterMapped<T, V>(s: seq<T>, convert: T -> (V, bool)): (r: seq<V>)
    ensures |r| <= |s|
  {
    if s == [] then []
    else
      var (v, accepted) := convert(s[|s| - 1]);
      FilterMapped(s[..|s| - 1], convert) + (if accepted then [v] else [])
  }

  /** Which pieces a conversion accepts. */
  function Accepts<T, V>(convert: T -> (V, bool)): T -> bool
  {
    x => convert(x).1
  }

  /** The value a conversion produces. */
  function Converted<T, V>(convert: T -> (V, bool)): T -> V
  {
    x => convert(x).0
  }

  /** Filter-mapping is the same as first filtering the accepted pieces and
      then converting each of them. */
  lemma {:induction false} FilterMappedIsMapOfFilter<T, V>(s: seq<T>, convert: T -> (V, bool))
    ensures FilterMapped(s, convert) == Mapped(Filtered(s, Accepts(convert)), Converted(convert))
  {
    if s != [] {
      var init, last := s[..|s| - 1], s[|s| - 1];
      FilterMappedIsMapOfFilter(init, convert);
      var kept := Filtered(init, Accepts(convert));
      if convert(last).1 {
        assert Filtered(s, Accepts(convert)) == kept + [last];
        assert (kept + [last])[..|kept|] == kept;
      } else {
        assert Filtered(s, Accepts(convert)) == kept;
      }
    }
  }

  // ---------------------------------------------------------------------
  // Concatenation

  /** The sequences of `ss` one after the other. */
  function Concat<V>(ss: seq<seq<V>>): seq<V>
  {
    if ss == [] then [] else Concat(ss[..|ss| - 1]) + ss[|ss| - 1]
  }

  /** The sum of the lengths of the sequences of `ss`. */
  function TotalLength<V>(ss: seq<seq<V>>): nat
  {
    if ss == [] then 0 else TotalLength(ss[..|ss| - 1]) + |ss[|ss| - 1]|
  }

  /** Concatenating the first sequence in front of the concatenation of the rest. */
  lemma {:induction false} ConcatCons<V>(x: seq<V>, ss: seq<seq<V>>)
    ensures Concat([x] + ss) == x + Concat(ss)
  {
    if ss != [] {
      var init := ss[..|ss| - 1];
      ConcatCons(x, init);
      assert ([x] + ss)[..|ss|] == [x] + init;
    }
  }

  /** The concatenation is as long as all the parts together. */
  lemma {:induction false} ConcatLength<V>(ss: seq<seq<V>>)
    ensures |Concat(ss)| == TotalLength(ss)
  {
    if ss != [] {
      ConcatLength(ss[..|ss| - 1]);
    }
  }

  // ---------------------------------------------------------------------
  // Chunks

  /** `s` cut into consecutive runs of `size` elements; the last run takes
      whatever is left. */
  function ChunksOf<V>(s: seq<V>, size: nat): seq<seq<V>>
    requires size > 0
    decreases |s|
  {
    if s == [] then []
    else if |s| <= size then [s]
    else [s[..size]] + ChunksOf(s[size..], size)
  }

  /** Gluing the chunks back together gives the original sequence. */
  lemma {:induction false} ChunksConcat<V>(s: seq<V>, size: nat)
    requires size > 0
    ensures Concat(ChunksOf(s, size)) == s
    decreases |s|
  {
    if s == [] {
    } else if |s| <= size {
      assert Concat([s]) == Concat([]) + s;
    } else {
      ChunksConcat(s[size..], size);
      ConcatCons(s[..size], ChunksOf(s[size..], size));
      assert s[..size] + s[size..] == s;
    }
  }

  /** Every chunk but the last has exactly `size` elements, and the last has
      between one and `size`. */
  lemma {:induction false} ChunksSizes<V>(s: seq<V>, size: nat)
    requires size > 0
    ensures forall k :: 0 <= k < |ChunksOf(s, size)| - 1 ==> |ChunksOf(s, size)[k]| == size
    ensures ChunksOf(s, size) != [] ==> 1 <= |ChunksOf(s, size)[|ChunksOf(s, size)| - 1]| <= size
    decreases |s|
  {
    if |s| > size {
      ChunksSizes(s[size..], size);
      var rest := ChunksOf(s[size..], size);
      assert ChunksOf(s, size) == [s[..size]] + rest;
      assert rest != [];
    }
  }

  /** There are as many chunks as `size` fits into the length, rounded up. */
  lemma {:induction false} ChunksCount<V>(s: seq<V>, size: nat)
    requires size > 0
    ensures |ChunksOf(s, size)| == (|s| + size - 1) / size
    decreases |s|
  {
    if s == [] {
      QuotientOf(0, size, size - 1);
    } else if |s| <= size {
      QuotientOf(1, size, |s| - 1);
    } else {
      ChunksCount(s[size..], size);
      DivShift(|s| + size - 1, size);
    }
  }

  /** Taking `d` off a number takes one off its quotient by `d`. */
  lemma DivShift(a: int, d: int)
    requires 0 < d
    ensures (a - d) / d == a / d - 1
  {
    var q, m := a / d, a % d;
    assert a == q * d + m;
    Distribute(q, 1, d);
    QuotientOf(q - 1, d, m);
  }

  /** Multiplying by a positive number does not make a positive factor smaller. */
  lemma MulAtLeast(x: int, d: int)
    requires x >= 1 && d > 0
    ensures x * d >= d
  {
  }

  /** Multiplication distributes over subtraction. */
  lemma Distribute(x: int, y: int, d: int)
    ensures (x - y) * d == x * d - y * d
  {
  }

  /** The quotient of `q * d + r` by `d` is `q` when `0 <= r < d`. */
  lemma QuotientOf(q: int, d: int, r: int)
    requires 0 <= r < d
    ensures (q * d + r) / d == q
  {
    var a := q * d + r;
    var q', r' := a / d, a % d;
    assert a == q' * d + r';
    Distribute(q, q', d);
    if q' < q {
      MulAtLeast(q - q', d);
    } else if q' > q {
      Distribute(q', q, d);
      MulAtLeast(q' - q, d);
    }
  }

  // ---------------------------------------------------------------------
  // Every n-th element

  /** The elements of `s` whose 0-based position is divisible by `k`. The
      remainder is only taken when there is an element to test, so an empty
      sequence needs no restriction on `k`. */
  function EveryNth<V>(s: seq<V>, k: int): (r: seq<V>)
    requires k != 0 || s == []
    ensures |r| <= |s|
  {
    if s == [] then []
    else EveryNth(s[..|s| - 1], k) + (if (|s| - 1) % k == 0 then [s[|s| - 1]] else [])
  }

  /** For a positive step, the result holds the elements at positions
      0, k, 2k, ..., and there are as many as the length divided by `k`,
      rounded up. */
  lemma {:induction false} EveryNthStride<V>(s: seq<V>, k: int)
    requires k > 0
    ensures |EveryNth(s, k)| == (|s| + k - 1) / k
    ensures forall j :: 0 <= j < |EveryNth(s, k)| ==> j * k < |s| && EveryNth(s, k)[j] == s[j * k]
  {
    if s == [] {
      QuotientOf(0, k, k - 1);
    } else {
      var m := |s| - 1;
      var init := s[..m];
      EveryNthStride(init, k);
      var r0 := EveryNth(init, k);
      StrideStep(m, k);
      forall j | 0 <= j < |r0| ensures j * k < m && r0[j] == s[j * k] {
        assert init[j * k] == s[j * k];
      }
      if m % k == 0 {
        assert EveryNth(s, k) == r0 + [s[m]];
      } else {
        assert EveryNth(s, k) == r0;
      }
    }
  }

  /** How the count of multiples of `k` below a bound grows when the bound
      `m` moves up by one. */
  lemma StrideStep(m: nat, k: int)
    requires k > 0
    ensures m % k == 0 ==> (m + k - 1) / k == m / k && (m + k) / k == m / k + 1 && (m / k) * k == m
    ensures m % k != 0 ==> (m + k) / k == (m + k - 1) / k
  {
    var q, rem := m / k, m % k;
    assert m == q * k + rem && 0 <= rem < k;
    if rem == 0 {
      QuotientOf(q, k, k - 1);
      QuotientOf(q + 1, k, 0);
      Distribute(q + 1, 1, k);
    } else {
      QuotientOf(q + 1, k, rem - 1);
      QuotientOf(q + 1, k, rem);
      Distribute(q + 1, 1, k);
    }
  }

  /** A negative step selects the same positions as its absolute value. */
  lemma {:induction false} EveryNthNegated<V>(s: seq<V>, k: int)
    requires k != 0
    ensures EveryNth(s, -k) == EveryNth(s, k)
  {
    if s != [] {
      EveryNthNegated(s[..|s| - 1], k);
      var m := |s| - 1;
      assert m % -k == m % k by {
        var q, r := m / k, m % k;
        assert m == (-q) * (-k) + r && 0 <= r < if k < 0 then -k else k;
      }
    }
  }

  // ---------------------------------------------------------------------
  // Reverse

  /** `s` read from its last element to its first. */
  function Reversed<V>(s: seq<V>): (r: seq<V>)
    ensures |r| == |s|
  {
    if s == [] then [] else [s[|s| - 1]] + Reversed(s[..|s| - 1])
  }

  /** Position `i` of the reversal holds position `|s| - 1 - i` of the input. */
  lemma {:induction false} ReversedAt<V>(s: seq<V>, i: nat)
    requires i < |s|
    ensures Reversed(s)[i] == s[|s| - 1 - i]
  {
    if i > 0 {
      ReversedAt(s[..|s| - 1], i - 1);
    }
  }

  /** Reversing twice gives back the original sequence. */
  lemma ReversedTwice<V>(s: seq<V>)
    ensures Reversed(Reversed(s)) == s
  {
    var r := Reversed(s);
    forall i | 0 <= i < |s|
      ensures Reversed(r)[i] == s[i]
    {
      ReversedAt(r, i);
      ReversedAt(s, |s| - 1 - i);
    }
  }

  /** Reversal keeps every element with its number of occurrences. */
  lemma {:induction false} ReversedPermutes<V>(s: seq<V>)
    ensures multiset(Reversed(s)) == multiset(s)
  {
    if s != [] {
      var init := s[..|s| - 1];
      ReversedPermutes(init);
      assert s == init + [s[|s| - 1]];
    }
  }

  // ---------------------------------------------------------------------
  // Unique

  /** The first occurrence of every value of `s`, in the order of those
      first occurrences. */
  function Dedup<V(==)>(s: seq<V>): seq<V>
  {
    if s == [] then []
    else
      var init, last := s[..|s| - 1], s[|s| - 1];
      Dedup(init) + (if last in init then [] else [last])
  }

  /** The position of the first occurrence of `x` in `s`. */
  function FirstIndex<V(==)>(s: seq<V>, x: V): (i: nat)
    requires x in s
    ensures i < |s| && s[i] == x && x !in s[..i]
  {
    if s[0] == x then 0
    else
      var j := FirstIndex(s[1..], x);
      assert s[..j + 1] == [s[0]] + s[1..][..j];
      j + 1
  }

  /** Appending an element does not move the first occurrence of a value
      already present. */
  lemma FirstIndexInPrefix<V>(s: seq<V>, x: V, n: nat)
    requires n <= |s| && x in s[..n]
    ensures FirstIndex(s, x) == FirstIndex(s[..n], x)
  {
    var j := FirstIndex(s[..n], x);
    assert s[..n][..j] == s[..j];
  }

  /** A value is in the deduplicated sequence exactly when it is in the input. */
  lemma {:induction false} DedupMembers<V>(s: seq<V>, x: V)
    ensures x in Dedup(s) <==> x in s
  {
    if s != [] {
      var init := s[..|s| - 1];
      DedupMembers(init, x);
      assert s == init + [s[|s| - 1]];
    }
  }

  /** No value occurs twice in the deduplicated sequence. */
  lemma {:induction false} DedupDistinct<V>(s: seq<V>)
    ensures forall a, b :: 0 <= a < b < |Dedup(s)| ==> Dedup(s)[a] != Dedup(s)[b]
  {
    if s != [] {
      var init, last := s[..|s| - 1], s[|s| - 1];
      DedupDistinct(init);
      if last !in init {
        var d := Dedup(init);
        DedupMembers(init, last);
        assert Dedup(s) == d + [last];
        forall a | 0 <= a < |d| ensures d[a] != last {
          assert d[a] in d;
        }
      }
    }
  }

  /** The deduplicated sequence lists values in the order of their first
      occurrence in the input. */
  lemma {:induction false} DedupFirstOccurrenceOrder<V>(s: seq<V>)
    ensures forall x :: x in Dedup(s) ==> x in s
    ensures forall a, b :: 0 <= a < b < |Dedup(s)| ==>
      FirstIndex(s, Dedup(s)[a]) < FirstIndex(s, Dedup(s)[b])
  {
    if s != [] {
      var init, last := s[..|s| - 1], s[|s| - 1];
      DedupFirstOccurrenceOrder(init);
      var d := Dedup(init);
      assert s[..|s| - 1] == init;
      forall x | x in d ensures x in s && FirstIndex(s, x) == FirstIndex(init, x) < |init| {
        FirstIndexInPrefix(s, x, |init|);
      }
      if last !in init {
        assert Dedup(s) == d + [last];
        assert FirstIndex(s, last) == |init|;
      } else {
        assert Dedup(s) == d;
      }
    }
  }

  // ---------------------------------------------------------------------
  // Integer ranges and window boundaries

  /** The integers from `lo` to `hi`, both included, in increasing order. */
  function Inclusive(lo: int, hi: int): seq<int>
    decreases hi - lo
  {
    if hi < lo then [] else Inclusive(lo, hi - 1) + [hi]
  }

  /** The range holds `hi - lo + 1` numbers, the `i`-th being `lo + i`. */
  lemma {:induction false} InclusiveAt(lo: int, hi: int)
    requires lo <= hi + 1
    ensures |Inclusive(lo, hi)| == hi - lo + 1
    ensures forall i :: 0 <= i < |Inclusive(lo, hi)| ==> Inclusive(lo, hi)[i] == lo + i
    decreases hi - lo
  {
    if lo <= hi {
      InclusiveAt(lo, hi - 1);
    }
  }

  /** A number is in the range exactly when it lies between the bounds. */
  lemma {:induction false} InclusiveMembers(lo: int, hi: int, x: int)
    ensures x in Inclusive(lo, hi) <==> lo <= x <= hi
    decreases hi - lo
  {
    if lo <= hi {
      InclusiveMembers(lo, hi - 1, x);
    }
  }

  /** The multiples of `step` between `lo` and `hi`, both included, in
      increasing order. The remainder is only taken when the range is not
      empty. */
  function Boundaries(lo: int, hi: int, step: int): (r: seq<int>)
    requires step != 0 || hi < lo
    decreases hi - lo
  {
    if hi < lo then []
    else Boundaries(lo, hi - 1, step) + (if hi % step == 0 then [hi] else [])
  }

  /** The boundaries are exactly the multiples of `step` in the range, each
      once, in strictly increasing order. */
  lemma {:induction false} BoundariesExact(lo: int, hi: int, step: int)
    requires step != 0 || hi < lo
    ensures forall x :: x in Boundaries(lo, hi, step) <==> lo <= x <= hi && x % step == 0
    ensures forall a, b :: 0 <= a < b < |Boundaries(lo, hi, step)| ==>
      Boundaries(lo, hi, step)[a] < Boundaries(lo, hi, step)[b]
    decreases hi - lo
  {
    if lo <= hi {
      BoundariesExact(lo, hi - 1, step);
      var b := Boundaries(lo, hi - 1, step);
      forall a | 0 <= a < |b| ensures b[a] < hi {
        assert b[a] in b;
      }
    }
  }

  /** One generated value per window: for every multiple `i` of `size` from
      `lo` to `hi`, `gen` is called on the window of `size` numbers that ends
      at `i`. */
  function Windows<V>(lo: int, hi: int, size: int, gen: (int, int) -> V): (r: seq<V>)
    requires size != 0 || hi < lo
    decreases hi - lo
  {
    if hi < lo then []
    else Windows(lo, hi - 1, size, gen) + (if hi % size == 0 then [gen(hi - size + 1, size)] else [])
  }

  /** The window generator for windows of `size` numbers ending at a boundary. */
  function WindowEndingAt<V>(size: int, gen: (int, int) -> V): int -> V
  {
    i => gen(i - size + 1, size)
  }

  /** The windows are the generator applied to each boundary in turn. */
  lemma {:induction false} WindowsAtBoundaries<V>(lo: int, hi: int, size: int, gen: (int, int) -> V)
    requires size != 0 || hi < lo
    ensures Windows(lo, hi, size, gen) == Mapped(Boundaries(lo, hi, size), WindowEndingAt(size, gen))
    decreases hi - lo
  {
    if lo <= hi {
      WindowsAtBoundaries(lo, hi - 1, size, gen);
      var b := Boundaries(lo, hi - 1, size);
      if hi % size == 0 {
        assert (b + [hi])[..|b|] == b;
      }
    }
  }

  // ---------------------------------------------------------------------
  // Joining strings

  /** The parts with `sep` between each two neighbours. */
  function Joined(parts: seq<string>, sep: string): string
  {
    if parts == [] then ""
    else if |parts| == 1 then parts[0]
    else Joined(parts[..|parts| - 1], sep) + sep + parts[|parts| - 1]
  }

  /** The joined string holds every character of the parts and one separator
      between each two neighbours. */
  lemma {:induction false} JoinedLength(parts: seq<string>, sep: string)
    requires parts != []
    ensures |Joined(parts, sep)| == TotalLength(parts) + (|parts| - 1) * |sep|
  {
    if |parts| > 1 {
      var init := parts[..|parts| - 1];
      JoinedLength(init, sep);
      assert (|parts| - 1) * |sep| == (|init| - 1) * |sep| + |sep|;
    } else {
      assert parts[..0] == [];
    }
  }
}
